=== FILE: README.md ===
# Climate dividend calculator — Dafny model

This project models the calculation core of a client-side carbon-dividend
calculator (after the UNSW Australian Carbon Dividend Plan). A carbon price
on national emissions raises revenue. The households' share of it is paid
out evenly per adult, and each child receives a fraction of an adult's share.
Meanwhile the price raises what a household pays for electricity, gas and
petrol. The calculator reports the dividend, the extra costs and the
household's net benefit, each per year and per month.

The model has four modules:

- `Values` (`values.dfy`): `Option`, JavaScript's `null` marker ("not
  computable"), and `Num`, what `parseFloat` returns (a finite number, or
  NaN/±Infinity).
- `Calculator` (`calculator.dfy`): the formulas of `src/calculator.js` over
  exact `real` arithmetic, and its default policy and household.
- `Validation` (`validation.dfy`): the fail-closed field validator
  `validateInput` of `src/app.js`, and the two functions that read the forms
  with it. National emissions are typed in Mt and scaled to tonnes.
- `Page` (`page.dfy`): currency formatting, the order in which one page
  update wires the calculator functions together, what every output cell of
  the results table and the details tab shows, and the final text of every
  field's error element. The DOM writes of one update are returned as a
  `PageUpdate` record.

One policy holds throughout: a per-adult dividend that cannot be computed is
`None`. `None` propagates to the household dividend, the net benefit and
their monthly figures. The cost figures involve no division and are always
numbers.

How the revenue is split:

- The households' share of the gross revenue G is `householdRebateShare × G`
  (src/calculator.js:83).
- The adult population is `population × adultShare`, and the per-adult
  dividend is the households' share divided by it.

## Model

| member | source | states |
|---|---|---|
| Calculator.GrossRevenue | src/calculator.js:54-57 | Gross revenue is non-negative for a non-negative price and emissions, and zero when either is zero; `Calculator.FullPassThroughPaysOwnRevenue` and `Calculator.PassedOnCostBounds` relate it to what households pay |
| Calculator.PerAdultDividend | src/calculator.js:75-84 | The dividend is `None` exactly when the population or adult share is ≤ 0 or not finite; otherwise the dividend times the adult population equals the rebate share of gross revenue |
| Calculator.DividendBounds | src/calculator.js:61-83 | For price and emissions ≥ 0 and a rebate share in [0,1], a computable dividend lies between 0 and gross revenue ÷ (population × adult share) |
| Calculator.HouseholdDividend | src/calculator.js:101-108 | The household dividend is `None` iff the per-adult dividend is; with no children it is adults × dividend; it is non-negative for non-negative inputs |
| Calculator.HouseholdDividendShares | src/calculator.js:101-107 | For any counts of adults and children, the household dividend is the adults' full shares plus each child's fraction of a share |
| Calculator.HouseholdDividendIsMemberSum | src/calculator.js:86-107 | For whole numbers of people, the formula equals paying each adult one dividend and each child childShareFactor of one, member by member |
| Calculator.ExtraCostPerUnit | src/calculator.js:110-126 | The unit cost is the passed-through fraction of the carbon price on one unit's emissions; it is zero when price, emissions factor or pass-through is zero; with full pass-through it is the whole carbon cost of a unit's emissions; with pass-through in [0,1] it lies between 0 and that |
| Calculator.AnnualFuelCost | src/calculator.js:128-142 | The annual cost of a fuel is zero for zero usage or zero unit cost, and non-negative for non-negative inputs |
| Calculator.TotalExtraHouseholdCost | src/calculator.js:144-155 | The total is a number that, for non-negative fuel costs, is at least each of them and is zero only when all three are; `Calculator.TotalIsPassedOnCost` equates it with an independent fuel-by-fuel sum |
| Calculator.NetBenefit | src/calculator.js:157-173 | The net benefit is `None` iff the household dividend is; adding the costs back gives the dividend; it is negative exactly when costs exceed the dividend |
| Calculator.MonthlyValue | src/calculator.js:175-194 | The monthly value is `None` iff the annual one is (null and undefined alike), and twelve of them make the annual value |
| Calculator.FuelCostIsPassedOn | src/calculator.js:123-141 | The cost of one fuel, usage × per-unit cost, equals the passed-through fraction of the carbon price on that fuel's emissions (usage × emissions factor) |
| Calculator.TotalIsPassedOnCost | src/calculator.js:123-155 | The calculator's total over electricity, gas and petrol equals the independent fuel-by-fuel passed-on carbon cost |
| Calculator.FullPassThroughPaysOwnRevenue | src/calculator.js:54-57 | With full pass-through on every fuel, the passed-on cost is exactly the gross-revenue formula applied to the household's own emissions |
| Calculator.PassedOnCostBounds | src/calculator.js:110-155 | For a non-negative price, usages and factors and pass-through rates in [0,1], the passed-on cost lies between 0 and the revenue raised on the household's own emissions |
| Calculator.PassedOnCostScales | src/calculator.js:123-155 | Scaling the carbon price by k scales the fuel-by-fuel passed-on cost by k |
| Calculator.TotalScalesWithPrice | src/calculator.js:123-155 | Scaling the carbon price by k scales the calculator's total extra cost over the three fuels by k |
| Calculator.DefaultFuelCosts | src/calculator.js:15-41 | With the defaults, the unit costs are 0.035/kWh, 2.55/GJ and 0.115/L, the fuel costs are 175, 51 and 184, and the total is 410 |
| Calculator.DefaultPerAdultDividend | src/calculator.js:15-28 | With the default policy the per-adult dividend is computable and lies between A$887 and A$888 |
| Validation.ValidateInput | src/app.js:186-240 | A blank field gives the default with no error. A non-number gives the default and "Invalid: must be a number." A finite entry is accepted iff it is in range and not refused by the special predicate. Below-min is checked first and uses the special message. A rejected entry always carries the default. An accepted entry is exactly the parsed, in-range value. Above the maximum the message is "Invalid: must be no more than …" with the bound. A finite in-range entry that the special predicate refuses gets the special message. An error is shown iff the entry is rejected |
| Validation.PopulationZeroAccepted | src/app.js:349-358 | A population of 0 is accepted without error and then makes the dividend `None`; a negative population is rejected with the special message |
| Validation.GetUserInputs | src/app.js:267-312 | Each household value is the entered finite value when ≥ 0, otherwise its own default, so all household values are non-negative |
| Validation.FieldValue | src/app.js:194-239 | The value a field's validation yields: the typed number exactly when it parses, is in range and is not refused, and the field's default otherwise |
| Validation.FieldError | src/app.js:194-239 | The message a field's validation leaves: empty exactly for a blank or accepted entry, the not-a-number message for text that does not parse, the special or "at least" message below the minimum, and the "no more than" message above the maximum |
| Validation.UserFieldErrors | src/app.js:271-311 | Each household field shows an empty message exactly when it is blank or an accepted entry, the not-a-number message for unparsable text, and a negative entry in any of the five fields is reported as "Invalid: must be at least 0." |
| Validation.PolicyFieldErrors | src/app.js:330-423 | Each background field shows an empty message exactly when it is blank or an accepted entry under its own options; the out-of-range texts are stated in `Validation.DividendFieldMessages` and `Validation.PolicyFieldMessages` |
| Validation.DividendFieldMessages | src/app.js:348-371 | A negative population or adult share reports its special message, and an adult share above 1 reports the bound 1 |
| Validation.PolicyFieldMessages | src/app.js:330-423 | A negative entry in any other background field reports "Invalid: must be at least 0.", and a rebate share or pass-through rate above 1 reports the bound 1 |
| Validation.RangeMessageIsNotSpecial | src/app.js:218-226 | The "no more than" range message never coincides with the population or adult-share special message |
| Validation.EmissionsTonnes | src/app.js:331-337 | Tonnes divided by 1,000,000 give back the megatonnes typed, and non-negative Mt give non-negative tonnes |
| Validation.EmissionsRoundTrip | src/app.js:332-337 | Any tonnage shown in Mt and scaled back is unchanged, so a blank emissions field gives exactly the default tonnage |
| Validation.GetPolicyAssumptions | src/app.js:314-426 | Every policy value is its field's in-range entry or its default (the population and adult-share special messages never refuse an in-range entry). Rates and shares lie in [0,1] and all other validated values are ≥ 0. An unreadable price selection gives the default price. A blank form gives the default policy exactly |
| Page.FormatCurrency | src/app.js:141-167 | `None` renders as "—"; a number renders as its locale text with at most one sign character in front |
| Page.FormatCurrencyMarkers | src/app.js:147-166 | For a locale that writes "$…" or "-$…", the output is "—" exactly when the value is `None`, and starts with "+" exactly when includeSign is set and the value is > 0 |
| Page.FormatUnitCost | src/app.js:169-180 | `None` renders as "—"; a number renders as the locale's unsigned currency text followed by the unit |
| Page.Calculate | src/app.js:453-525 | The per-adult dividend is `None` exactly when population or adult share is ≤ 0. Then the household dividend, the net benefit and all three monthly figures are `None`, and otherwise all are present. The monthly total cost is always present and is one twelfth of the annual total. Each monthly dividend is one twelfth of its own annual dividend. Net benefit plus costs equals the household dividend |
| Page.CostsIndependentOfDividend | src/app.js:475-524 | Two policies with the same price, emissions factors and pass-through rates give identical per-unit, per-fuel, total and monthly costs, whatever their dividend settings |
| Page.ResultsNonNegative | src/app.js:453-514 | For in-range policy and household values and a non-negative price, gross revenue, every cost and every present dividend is non-negative |
| Page.MonthlyFiguresBalance | src/app.js:516-525 | When the net benefit is present, monthly net benefit plus monthly extra cost equals the monthly household dividend |
| Page.CalculateDividendInputs | src/app.js:455-473 | The revenue is the price times national emissions. The per-adult dividend times the adult population is the households' share of that revenue. The household dividend is one full share per adult plus the child-share fraction of a share per child |
| Page.CalculateFuelInputs | src/app.js:476-507 | Each per-unit cost uses its own fuel's emissions factor and pass-through rate. Each annual fuel cost is the passed-on carbon cost of that fuel's usage alone |
| Page.TotalExtraCostIsPassedOn | src/app.js:475-514 | The page's total extra cost equals the fuel-by-fuel passed-on carbon cost of the household's electricity, gas and petrol |
| Page.ExtraCostAtMostOwnRevenue | src/app.js:475-514 | For in-range inputs and a non-negative price, the household's extra cost is at most the revenue the price raises on its own emissions, and equal to it with full pass-through on every fuel |
| Page.Show | src/app.js:527-611 | The placeholder branch agrees with formatting the missing results: every table cell is its result formatted, and the net benefit is shown with its sign. The details tab shows every intermediate figure, per-unit costs followed by their units, and "—" for the per-adult dividend, household dividend and net benefit when population or adult share is ≤ 0. The headline is unavailable exactly when the dividend is. Otherwise it reports the magnitude of the net benefit or the net cost. The update writes the population and adult-share messages exactly when those values are ≤ 0 |
| Page.PerformCalculationsAndUpdateDisplay | src/app.js:435-603 | Every cell shown is the one `Page.Show` writes for the validated forms. The annual extra cost shown is the passed-on carbon cost of the fuel usage in the validated household form under the validated background values. The headline amount is the net annual benefit of those validated inputs, negated when it reports a net cost. After validation, the dividend is unavailable exactly when a population or adult share of exactly 0 was typed, and the update's own error messages appear in exactly those cases. The household fields keep their validators' messages, and the background fields end with the messages `Page.PolicyErrorsAfterUpdate` states |
| Page.PolicyErrorsAfterUpdate | src/app.js:435-451 | After an update the population field is silent exactly for a blank or positive entry and shows its special message exactly for an entry ≤ 0; the adult share likewise, and shows the "no more than" message above 1; unparsable text shows the not-a-number message; every other background field keeps its validator's message |
| Page.ZeroPopulationShowsPlaceholders | src/app.js:441-445 | With 0 typed as population, the headline is unavailable, the six dividend and net-benefit table cells and the three dividend-dependent details show "—", the two extra-cost cells show amounts, and the population field ends up showing its special message |
| Page.DefaultScenario | src/app.js:435-525 | Blank forms give the default policy and household. The default household pays 410 in extra costs, receives twice the per-adult dividend (between 1774 and 1776), and comes out between 1364 and 1366 ahead, which the headline reports as a net benefit |

## Left out

- DOM element lookup, tab navigation (`showTab`), event-listener wiring, the blur handlers that reset a field to its default, and CSS class toggling are not modelled. They are UI plumbing with no computable content.
- `parseFloat` and `String.prototype.trim` are not modelled as string operations. A field's text is given as its already-parsed form, `FieldText` (blank, or a `Num`).
- `toLocaleString` and JavaScript's number-to-string conversion are not modelled. They are foreign library calls, passed in as the `Locale` and `showNumber` function parameters.
- The headline and narrative prose, and `console.warn`, are not modelled. The headline is reduced to its kind and amount (`Headline`).
- IEEE-754 rounding, overflow, and NaN/Infinity arithmetic are not modelled: all formulas are exact over `real`. "Not finite" is represented only where the code tests for it: in the divisors of `calculatePerAdultDividend` and in the validator's parse result.
- The carbon price comes from a `<select>`. It is modelled as a parse that is either a number or NaN. An infinite value cannot come from the fixed options.
- `formatCurrency` in `src/calculator.js` (lines 204-216, with a `decimals` parameter) is not modelled. The page's own `formatCurrency` in `src/app.js` is declared later and replaces it, and the model covers that one.
- Page.FormatCurrency: its own contract says only that the locale text is a suffix of the result. The exact "—" and "+" behaviour is proved in Page.FormatCurrencyMarkers, assuming a locale whose output starts with "$" or "-".
- Calculator.TotalExtraHouseholdCost: the sum of the three fuel costs is its definition, so its contract states order and zero facts; the sum itself is checked against the independent fuel-by-fuel reference in `Calculator.TotalIsPassedOnCost`. "Always a number" is carried by its result type `real`.
- Calculator.GrossRevenue: the product price × emissions is its definition; the contract states its sign and zero cases, and the dividend and passed-on-cost lemmas use it as the reference.
- Calculator.AnnualFuelCost: the product usage × unit cost is its definition; the contract states its sign and zero cases, `Calculator.FuelCostIsPassedOn` relates it to the fuel's emissions, and `Calculator.DefaultFuelCosts` pins the default figures.
- The `input-error` CSS class that marks a rejected field is not modelled; the error text each field shows is.

=== FILE: calculator.dfy ===
/**
 * The carbon-dividend calculation model: a short chain of total, pure
 * formulas from policy assumptions and household usage to dividends, extra
 * fuel costs and the household's net benefit. Arithmetic is exact over
 * `real`; the only abnormal outcome is the `None` marker of a dividend that
 * cannot be computed because the population or the adult share is not a
 * positive finite number.
 */
module Calculator {
  import opened Values

  /** The policy side of a calculation (the "background assumptions"). */
  datatype PolicyAssumptions = PolicyAssumptions(
    carbonPrice: real,             // A$ per tonne CO2-e
    nationalEmissions: real,       // tonnes CO2-e
    householdRebateShare: real,    // fraction of revenue returned to households
    population: real,              // total population
    adultShare: real,              // fraction of the population that is adult
    childShareFactor: real,        // fraction of an adult dividend paid per child
    gridEmissionsFactor: real,     // t per kWh
    gasEmissionsFactor: real,      // t per GJ
    petrolEmissionsFactor: real,   // t per L
    passThroughElectricity: real,  // fraction of the price passed on, per fuel
    passThroughGas: real,
    passThroughPetrol: real)

  /** The household side of a calculation. */
  datatype UserInputs = UserInputs(
    numAdults: real,
    numChildren: real,
    annualElectricityKwh: real,
    annualGasGj: real,
    annualPetrolL: real)

  /** The baseline policy, after the UNSW Australian Carbon Dividend Plan. */
  const DefaultPolicy := PolicyAssumptions(
    50.0, 434900000.0, 0.90, 27204809.0, 0.811, 0.5,
    0.0007, 0.051, 0.0023,
    1.0, 1.0, 1.0)

  /** The baseline household: two adults, no children, average usage. */
  const DefaultUserInputs := UserInputs(2.0, 0.0, 5000.0, 20.0, 1600.0)

  /** Months per year, the divisor of every monthly figure. */
  const MonthsPerYear: real := 12.0

  // ---------------------------------------------------------------------
  // Revenue and dividends
  // ---------------------------------------------------------------------

  /** Gross scheme revenue G = P × E. */
  function GrossRevenue(carbonPrice: real, nationalEmissions: real): (g: real)
    ensures carbonPrice >= 0.0 && nationalEmissions >= 0.0 ==> g >= 0.0
    ensures carbonPrice == 0.0 || nationalEmissions == 0.0 ==> g == 0.0
  {
    carbonPrice * nationalEmissions
  }

  /** The dividend can be computed exactly when both divisors are positive
      finite numbers. */
  predicate DividendComputable(population: Num, adultShare: Num)
  {
    && population.Finite? && adultShare.Finite?
    && population.value > 0.0 && adultShare.value > 0.0
  }

  /** Annual dividend per adult: the households' share of the revenue split
      evenly over the adult population, or `None` when the population or the
      adult share is not positive or not finite. */
  function PerAdultDividend(carbonPrice: real, nationalEmissions: real, householdRebateShare: real,
                            population: Num, adultShare: Num): (d: Option<real>)
    ensures d.None? <==>
      (population.NonFinite? || adultShare.NonFinite? || population.value <= 0.0 || adultShare.value <= 0.0)
    // every adult receives the same amount, and together they receive
    // exactly the households' share of the gross revenue
    ensures d.Some? ==>
      d.value * (population.value * adultShare.value)
        == householdRebateShare * GrossRevenue(carbonPrice, nationalEmissions)
  {
    if population.NonFinite? || adultShare.NonFinite? || population.value <= 0.0 || adultShare.value <= 0.0 then
      None
    else
      var adults := population.value * adultShare.value;
      var pool := householdRebateShare * nationalEmissions * carbonPrice;
      assert pool == householdRebateShare * GrossRevenue(carbonPrice, nationalEmissions);
      Some(pool / adults)
  }

  /** For in-range policy values, a computable dividend is non-negative and
      never exceeds an even split of the whole gross revenue. */
  lemma DividendBounds(carbonPrice: real, nationalEmissions: real, householdRebateShare: real,
                       population: Num, adultShare: Num)
    requires carbonPrice >= 0.0 && nationalEmissions >= 0.0
    requires 0.0 <= householdRebateShare <= 1.0
    requires DividendComputable(population, adultShare)
    ensures var d := PerAdultDividend(carbonPrice, nationalEmissions, householdRebateShare, population, adultShare);
      && d.Some?
      && 0.0 <= d.value
      && d.value <= GrossRevenue(carbonPrice, nationalEmissions) / (population.value * adultShare.value)
  {
    var d := PerAdultDividend(carbonPrice, nationalEmissions, householdRebateShare, population, adultShare).value;
    var adults := population.value * adultShare.value;
    var g := GrossRevenue(carbonPrice, nationalEmissions);
    assert adults > 0.0 by { PositiveProduct(population.value, adultShare.value); }
    ShareOfEvenSplit(d, adults, householdRebateShare, g);
  }

  lemma PositiveProduct(x: real, y: real)
    requires x > 0.0 && y > 0.0
    ensures x * y > 0.0
  {}

  lemma ScaledShareBounds(g: real, share: real)
    requires g >= 0.0 && 0.0 <= share <= 1.0
    ensures 0.0 <= share * g <= g
  {
    assert g - share * g == (1.0 - share) * g;
  }

  /** If d·n is a share in [0, 1] of g ≥ 0, with n > 0, then 0 ≤ d ≤ g / n. */
  lemma ShareOfEvenSplit(d: real, n: real, share: real, g: real)
    requires n > 0.0 && g >= 0.0 && 0.0 <= share <= 1.0
    requires d * n == share * g
    ensures 0.0 <= d <= g / n
  {
    ScaledShareBounds(g, share);
    QuotientBounds(d, n, share * g, g);
  }

  /** If q·n = a with n > 0 and 0 ≤ a ≤ b, then 0 ≤ q ≤ b / n. */
  lemma QuotientBounds(q: real, n: real, a: real, b: real)
    requires n > 0.0 && q * n == a && 0.0 <= a <= b
    ensures 0.0 <= q <= b / n
  {
    assert q == a / n;
    assert b / n - a / n == (b - a) / n;
  }

  /** Annual dividend for the whole household: a full share per adult and
      `childShareFactor` of a share per child, or `None` when the per-adult
      dividend is `None`. */
  function HouseholdDividend(numAdults: real, numChildren: real, childShareFactor: real,
                             adultAnnualDividend: Option<real>): (h: Option<real>)
    ensures h.None? <==> adultAnnualDividend.None?
    ensures adultAnnualDividend.Some? && numChildren == 0.0 ==>
      h.Some? && h.value == numAdults * adultAnnualDividend.value
    ensures (&& adultAnnualDividend.Some? && adultAnnualDividend.value >= 0.0
             && numAdults >= 0.0 && numChildren >= 0.0 && childShareFactor >= 0.0) ==> h.value >= 0.0
  {
    match adultAnnualDividend
    case None => None
    case Some(d) =>
      Some((numAdults + childShareFactor * numChildren) * d)
  }

  /** For any counts, the household receives the adults' full shares plus
      the children's partial shares. */
  lemma HouseholdDividendShares(numAdults: real, numChildren: real, childShareFactor: real, perAdult: real)
    ensures HouseholdDividend(numAdults, numChildren, childShareFactor, Some(perAdult)).value
            == numAdults * perAdult + numChildren * (childShareFactor * perAdult)
  {
  }

  /** Independent reference for a household of whole people: add the members
      one at a time, each child bringing `childShareFactor` of a dividend and
      each adult a full one. */
  function MemberSum(adults: nat, children: nat, childShareFactor: real, perAdult: real): real
  {
    if children > 0 then MemberSum(adults, children - 1, childShareFactor, perAdult) + childShareFactor * perAdult
    else if adults > 0 then MemberSum(adults - 1, 0, childShareFactor, perAdult) + perAdult
    else 0.0
  }

  /** The closed formula agrees with paying every member individually. */
  lemma {:induction false} HouseholdDividendIsMemberSum(adults: nat, children: nat, childShareFactor: real, perAdult: real)
    ensures HouseholdDividend(adults as real, children as real, childShareFactor, Some(perAdult)).value
         == MemberSum(adults, children, childShareFactor, perAdult)
    decreases adults + children
  {
    var a := adults as real;
    if children > 0 {
      HouseholdDividendIsMemberSum(adults, children - 1, childShareFactor, perAdult);
      OneMoreShare(a, childShareFactor, (children - 1) as real, perAdult);
    } else if adults > 0 {
      HouseholdDividendIsMemberSum(adults - 1, 0, childShareFactor, perAdult);
      OneMoreShare(childShareFactor * 0.0, 1.0, (adults - 1) as real, perAdult);
    }
  }

  /** Adding one member of weight w adds w dividends. */
  lemma OneMoreShare(base: real, w: real, n: real, perAdult: real)
    ensures (base + w * (n + 1.0)) * perAdult == (base + w * n) * perAdult + w * perAdult
  {}

  // ---------------------------------------------------------------------
  // Fuel costs
  // ---------------------------------------------------------------------

  /** Extra cost per unit of a fuel, Δp = P × EF × PT. */
  function ExtraCostPerUnit(carbonPrice: real, emissionsFactor: real, passThroughRate: real): (c: real)
    ensures carbonPrice == 0.0 || emissionsFactor == 0.0 || passThroughRate == 0.0 ==> c == 0.0
    // with full pass-through the consumer pays the whole carbon price on the
    // fuel's emissions; with partial pass-through no more than that
    ensures c == passThroughRate * (carbonPrice * emissionsFactor)
    ensures passThroughRate == 1.0 ==> c == carbonPrice * emissionsFactor
    ensures carbonPrice >= 0.0 && emissionsFactor >= 0.0 && 0.0 <= passThroughRate <= 1.0 ==>
      0.0 <= c <= carbonPrice * emissionsFactor
  {
    var full := carbonPrice * emissionsFactor;
    ScaledShareBoundsIfInRange(full, passThroughRate);
    full * passThroughRate
  }

  lemma ScaledShareBoundsIfInRange(g: real, share: real)
    ensures g >= 0.0 && 0.0 <= share <= 1.0 ==> 0.0 <= g * share <= g
  {
    if g >= 0.0 && 0.0 <= share <= 1.0 {
      ScaledShareBounds(g, share);
    }
  }

  /** Annual extra cost of one fuel, ΔC = usage × Δp. */
  function AnnualFuelCost(usage: real, extraCostPerUnit: real): (c: real)
    ensures usage == 0.0 || extraCostPerUnit == 0.0 ==> c == 0.0
    ensures usage >= 0.0 && extraCostPerUnit >= 0.0 ==> c >= 0.0
  {
    usage * extraCostPerUnit
  }

  /** Total annual extra cost over the three fuels; always a number. */
  function TotalExtraHouseholdCost(annualElectricityCost: real, annualGasCost: real, annualPetrolCost: real): (t: real)
    ensures annualElectricityCost >= 0.0 && annualGasCost >= 0.0 && annualPetrolCost >= 0.0 ==>
      && t >= annualElectricityCost && t >= annualGasCost && t >= annualPetrolCost
      && (t == 0.0 <==> annualElectricityCost == 0.0 && annualGasCost == 0.0 && annualPetrolCost == 0.0)
  {
    annualElectricityCost + annualGasCost + annualPetrolCost
  }

  // ---------------------------------------------------------------------
  // An independent reference for the cost side
  // ---------------------------------------------------------------------

  /** One fuel a household buys: its annual usage, the tonnes emitted per
      unit, and the fraction of the carbon price passed on to consumers. */
  datatype Fuel = Fuel(usage: real, emissionsFactor: real, passThroughRate: real)

  /** The tonnes a household's fuel use emits in a year. */
  function HouseholdEmissions(fuels: seq<Fuel>): real
  {
    if |fuels| == 0 then 0.0
    else fuels[0].usage * fuels[0].emissionsFactor + HouseholdEmissions(fuels[1..])
  }

  /** Independent reference for the household's extra cost, fuel by fuel:
      the passed-on fraction of the carbon price on that fuel's emissions. */
  function PassedOnCost(fuels: seq<Fuel>, carbonPrice: real): real
  {
    if |fuels| == 0 then 0.0
    else
      var f := fuels[0];
      f.passThroughRate * (carbonPrice * (f.usage * f.emissionsFactor)) + PassedOnCost(fuels[1..], carbonPrice)
  }

  /** The cost of one fuel as the calculator computes it (usage times the
      per-unit cost) is the passed-on carbon cost of its emissions. */
  lemma FuelCostIsPassedOn(f: Fuel, carbonPrice: real)
    ensures AnnualFuelCost(f.usage, ExtraCostPerUnit(carbonPrice, f.emissionsFactor, f.passThroughRate))
         == f.passThroughRate * (carbonPrice * (f.usage * f.emissionsFactor))
  {}

  /** The calculator's total over electricity, gas and petrol equals the
      fuel-by-fuel reference. */
  lemma TotalIsPassedOnCost(elec: Fuel, gas: Fuel, petrol: Fuel, carbonPrice: real)
    ensures TotalExtraHouseholdCost(
              AnnualFuelCost(elec.usage, ExtraCostPerUnit(carbonPrice, elec.emissionsFactor, elec.passThroughRate)),
              AnnualFuelCost(gas.usage, ExtraCostPerUnit(carbonPrice, gas.emissionsFactor, gas.passThroughRate)),
              AnnualFuelCost(petrol.usage, ExtraCostPerUnit(carbonPrice, petrol.emissionsFactor, petrol.passThroughRate)))
         == PassedOnCost([elec, gas, petrol], carbonPrice)
  {
    FuelCostIsPassedOn(elec, carbonPrice);
    FuelCostIsPassedOn(gas, carbonPrice);
    FuelCostIsPassedOn(petrol, carbonPrice);
    var fuels := [elec, gas, petrol];
    assert fuels[1..] == [gas, petrol] && fuels[1..][1..] == [petrol] && fuels[1..][1..][1..] == [];
    assert PassedOnCost([petrol], carbonPrice)
        == petrol.passThroughRate * (carbonPrice * (petrol.usage * petrol.emissionsFactor));
  }

  /** With full pass-through on every fuel, the household pays exactly the
      revenue the carbon price raises on its own emissions. */
  lemma {:induction false} FullPassThroughPaysOwnRevenue(fuels: seq<Fuel>, carbonPrice: real)
    requires forall i :: 0 <= i < |fuels| ==> fuels[i].passThroughRate == 1.0
    ensures PassedOnCost(fuels, carbonPrice) == GrossRevenue(carbonPrice, HouseholdEmissions(fuels))
  {
    if |fuels| > 0 {
      FullPassThroughPaysOwnRevenue(fuels[1..], carbonPrice);
      var e := fuels[0].usage * fuels[0].emissionsFactor;
      Distribute(carbonPrice, e, HouseholdEmissions(fuels[1..]));
    }
  }

  /** With in-range factors and rates and a non-negative price, the household
      never pays more than the revenue raised on its own emissions. */
  lemma {:induction false} PassedOnCostBounds(fuels: seq<Fuel>, carbonPrice: real)
    requires carbonPrice >= 0.0
    requires forall i :: 0 <= i < |fuels| ==>
      fuels[i].usage >= 0.0 && fuels[i].emissionsFactor >= 0.0 && 0.0 <= fuels[i].passThroughRate <= 1.0
    ensures 0.0 <= PassedOnCost(fuels, carbonPrice) <= GrossRevenue(carbonPrice, HouseholdEmissions(fuels))
  {
    if |fuels| > 0 {
      var f := fuels[0];
      var e := f.usage * f.emissionsFactor;
      var rest := PassedOnCost(fuels[1..], carbonPrice);
      var restEmissions := HouseholdEmissions(fuels[1..]);
      PassedOnCostBounds(fuels[1..], carbonPrice);
      assert 0.0 <= rest <= carbonPrice * restEmissions;
      Distribute(carbonPrice, e, restEmissions);
      var own := f.passThroughRate * (carbonPrice * e);
      assert e >= 0.0 by { NonNegativeProduct(f.usage, f.emissionsFactor); }
      assert 0.0 <= f.passThroughRate <= 1.0;
      OneFuelBounds(f.passThroughRate, carbonPrice, e);
      assert own >= 0.0;
      assert own <= carbonPrice * e;
      assert PassedOnCost(fuels, carbonPrice) == own + rest;
      assert GrossRevenue(carbonPrice, HouseholdEmissions(fuels)) == carbonPrice * e + carbonPrice * restEmissions;
    }
  }

  /** One fuel's passed-on cost lies between 0 and the carbon cost of its
      emissions. */
  lemma OneFuelBounds(rate: real, price: real, tonnes: real)
    requires price >= 0.0 && tonnes >= 0.0 && 0.0 <= rate <= 1.0
    ensures 0.0 <= rate * (price * tonnes) <= price * tonnes
  {
    NonNegativeProduct(price, tonnes);
    ScaledShareBounds(price * tonnes, rate);
  }

  /** Every cost is proportional to the carbon price: scaling the price by k
      scales the household's extra cost by k. */
  lemma {:induction false} PassedOnCostScales(fuels: seq<Fuel>, carbonPrice: real, k: real)
    ensures PassedOnCost(fuels, k * carbonPrice) == k * PassedOnCost(fuels, carbonPrice)
  {
    if |fuels| > 0 {
      PassedOnCostScales(fuels[1..], carbonPrice, k);
      var f := fuels[0];
      ScaleOneFuel(f.passThroughRate, carbonPrice, f.usage * f.emissionsFactor, k);
      Distribute(k, f.passThroughRate * (carbonPrice * (f.usage * f.emissionsFactor)),
                 PassedOnCost(fuels[1..], carbonPrice));
    }
  }

  /** The calculator's total over electricity, gas and petrol is
      proportional to the carbon price. */
  lemma TotalScalesWithPrice(elec: Fuel, gas: Fuel, petrol: Fuel, carbonPrice: real, k: real)
    ensures TotalExtraHouseholdCost(
              AnnualFuelCost(elec.usage, ExtraCostPerUnit(k * carbonPrice, elec.emissionsFactor, elec.passThroughRate)),
              AnnualFuelCost(gas.usage, ExtraCostPerUnit(k * carbonPrice, gas.emissionsFactor, gas.passThroughRate)),
              AnnualFuelCost(petrol.usage, ExtraCostPerUnit(k * carbonPrice, petrol.emissionsFactor, petrol.passThroughRate)))
         == k * TotalExtraHouseholdCost(
              AnnualFuelCost(elec.usage, ExtraCostPerUnit(carbonPrice, elec.emissionsFactor, elec.passThroughRate)),
              AnnualFuelCost(gas.usage, ExtraCostPerUnit(carbonPrice, gas.emissionsFactor, gas.passThroughRate)),
              AnnualFuelCost(petrol.usage, ExtraCostPerUnit(carbonPrice, petrol.emissionsFactor, petrol.passThroughRate)))
  {
    TotalIsPassedOnCost(elec, gas, petrol, k * carbonPrice);
    TotalIsPassedOnCost(elec, gas, petrol, carbonPrice);
    PassedOnCostScales([elec, gas, petrol], carbonPrice, k);
  }

  lemma Distribute(k: real, a: real, b: real)
    ensures k * (a + b) == k * a + k * b
  {}

  lemma NonNegativeProduct(x: real, y: real)
    requires x >= 0.0 && y >= 0.0
    ensures x * y >= 0.0
  {}

  lemma ScaleOneFuel(rate: real, price: real, tonnes: real, k: real)
    ensures rate * ((k * price) * tonnes) == k * (rate * (price * tonnes))
  {}

  /** Net annual benefit: the household dividend less the extra costs, or
      `None` when the dividend is `None`. A negative value is a net cost. */
  function NetBenefit(annualHouseholdDividend: Option<real>, totalAnnualExtraCost: real): (n: Option<real>)
    ensures n.None? <==> annualHouseholdDividend.None?
    // adding the costs back recovers the dividend
    ensures n.Some? ==> n.value + totalAnnualExtraCost == annualHouseholdDividend.value
    ensures n.Some? ==> (n.value < 0.0 <==> totalAnnualExtraCost > annualHouseholdDividend.value)
  {
    match annualHouseholdDividend
    case None => None
    case Some(h) => Some(h - totalAnnualExtraCost)
  }

  /** Monthly equivalent of an annual figure; `None` (null or undefined)
      stays `None`. */
  function MonthlyValue(annualValue: Option<real>): (m: Option<real>)
    ensures m.None? <==> annualValue.None?
    ensures m.Some? ==> MonthsPerYear * m.value == annualValue.value
  {
    match annualValue
    case None => None
    case Some(a) => Some(a / MonthsPerYear)
  }


  // ---------------------------------------------------------------------
  // The default scenario
  // ---------------------------------------------------------------------

  /** With the default policy and household the per-unit costs are 3.5 c/kWh,
      A$2.55/GJ and 11.5 c/L, the fuel costs A$175, A$51 and A$184, and the
      total A$410. */
  lemma DefaultFuelCosts()
    ensures ExtraCostPerUnit(DefaultPolicy.carbonPrice, DefaultPolicy.gridEmissionsFactor, DefaultPolicy.passThroughElectricity) == 0.035
    ensures ExtraCostPerUnit(DefaultPolicy.carbonPrice, DefaultPolicy.gasEmissionsFactor, DefaultPolicy.passThroughGas) == 2.55
    ensures ExtraCostPerUnit(DefaultPolicy.carbonPrice, DefaultPolicy.petrolEmissionsFactor, DefaultPolicy.passThroughPetrol) == 0.115
    ensures AnnualFuelCost(DefaultUserInputs.annualElectricityKwh, 0.035) == 175.0
    ensures AnnualFuelCost(DefaultUserInputs.annualGasGj, 2.55) == 51.0
    ensures AnnualFuelCost(DefaultUserInputs.annualPetrolL, 0.115) == 184.0
    ensures TotalExtraHouseholdCost(175.0, 51.0, 184.0) == 410.0
  {}

  /** With the default policy every adult receives between A$887 and A$888 a
      year. */
  lemma DefaultPerAdultDividend()
    ensures var d := PerAdultDividend(DefaultPolicy.carbonPrice, DefaultPolicy.nationalEmissions,
                                      DefaultPolicy.householdRebateShare,
                                      Finite(DefaultPolicy.population), Finite(DefaultPolicy.adultShare));
      d.Some? && 887.0 < d.value < 888.0
  {
    var d := PerAdultDividend(DefaultPolicy.carbonPrice, DefaultPolicy.nationalEmissions,
                              DefaultPolicy.householdRebateShare,
                              Finite(DefaultPolicy.population), Finite(DefaultPolicy.adultShare));
    assert d.value * 22063100.099 == 19570500000.0;
  }
}

=== FILE: page.dfy ===
/**
 * One update of the page: gather and validate both forms, run the
 * calculator chain, and decide what every output cell and every field's
 * error element shows. The DOM writes of one update are modelled as the
 * returned `PageUpdate` record; `toLocaleString` is the `Locale` parameter.
 */
module Page {
  import opened Values
  import opened Calculator
  import opened Validation

  /** `toLocaleString('en-AU', { style: 'currency', currency: 'AUD' })` with
      two decimals. */
  type Locale = real -> string

  /** What a cell shows for a value that is `None`. */
  const Placeholder := "—"

  /** Shape of an en-AU currency string: "$1,234.56" or "-$1,234.56". */
  predicate CurrencyText(s: string)
  {
    |s| > 0 && (s[0] == '$' || s[0] == '-')
  }

  /** The locale formatter only produces currency strings. */
  ghost predicate LocaleWellFormed(locale: Locale)
  {
    forall v: real :: CurrencyText(locale(v))
  }

  // ---------------------------------------------------------------------
  // Formatting
  // ---------------------------------------------------------------------

  /** Formats a value as currency: `None` becomes the placeholder, and a
      positive value gets a leading '+' when `includeSign` is set. */
  function FormatCurrency(value: Option<real>, includeSign: bool, locale: Locale): (s: string)
    ensures value.None? ==> s == Placeholder
    // a number is shown as its locale text, with at most one sign character in front
    ensures value.Some? ==>
      var text := locale(value.value);
      && |text| <= |s| <= |text| + 1
      && s[|s| - |text|..] == text
  {
    match value
    case None => Placeholder
    case Some(v) =>
      var formatted := locale(v);
      if includeSign && v > 0.0 then "+" + formatted else formatted
  }

  /** The placeholder appears exactly for `None`, and the '+' exactly for a
      positive value formatted with `includeSign`. */
  lemma FormatCurrencyMarkers(value: Option<real>, includeSign: bool, locale: Locale)
    requires LocaleWellFormed(locale)
    ensures var s := FormatCurrency(value, includeSign, locale);
      && |s| > 0
      && (s == Placeholder <==> value.None?)
      && (s[0] == '+' <==> (value.Some? && includeSign && value.value > 0.0))
  {
    var s := FormatCurrency(value, includeSign, locale);
    if value.Some? {
      var text := locale(value.value);
      assert CurrencyText(text);
      if includeSign && value.value > 0.0 {
        assert s[1..] == text;
        assert s != Placeholder by { assert |s| == |text| + 1; assert |Placeholder| == 1; }
      } else {
        assert s == text;
        assert s[0] != Placeholder[0];
      }
    }
  }

  /** Formats a per-unit cost followed by its unit. */
  function FormatUnitCost(value: Option<real>, unit: string, locale: Locale): (s: string)
    ensures value.None? ==> s == Placeholder
    // a number is its unsigned locale text followed by the unit
    ensures value.Some? ==> s == locale(value.value) + unit
  {
    if value.None? then Placeholder else FormatCurrency(value, false, locale) + unit
  }

  // ---------------------------------------------------------------------
  // The calculation chain
  // ---------------------------------------------------------------------

  /** Every figure the page computes in one update. */
  datatype Results = Results(
    grossRevenue: real,
    adultAnnualDividend: Option<real>,
    householdAnnualDividend: Option<real>,
    extraCostPerKwh: real,
    extraCostPerGj: real,
    extraCostPerLitre: real,
    annualElecCost: real,
    annualGasCost: real,
    annualPetrolCost: real,
    totalAnnualExtraCost: real,
    netAnnualBenefit: Option<real>,
    adultMonthlyDividend: Option<real>,
    householdMonthlyDividend: Option<real>,
    totalMonthlyExtraCost: Option<real>,
    netMonthlyBenefit: Option<real>)

  /** The cost side of the results: everything that involves no division. */
  predicate SameCosts(r1: Results, r2: Results)
  {
    && r1.extraCostPerKwh == r2.extraCostPerKwh
    && r1.extraCostPerGj == r2.extraCostPerGj
    && r1.extraCostPerLitre == r2.extraCostPerLitre
    && r1.annualElecCost == r2.annualElecCost
    && r1.annualGasCost == r2.annualGasCost
    && r1.annualPetrolCost == r2.annualPetrolCost
    && r1.totalAnnualExtraCost == r2.totalAnnualExtraCost
    && r1.totalMonthlyExtraCost.Some? && r2.totalMonthlyExtraCost.Some?
    && r1.totalMonthlyExtraCost.value == r2.totalMonthlyExtraCost.value
  }

  /** Runs the calculator functions in the order the page wires them. */
  function Calculate(p: PolicyAssumptions, u: UserInputs): (r: Results)
    // the dividend is missing exactly when the population or adult share is not positive
    ensures r.adultAnnualDividend.None? <==> (p.population <= 0.0 || p.adultShare <= 0.0)
    // a missing dividend takes every dependent figure with it ...
    ensures r.adultAnnualDividend.None? ==>
      && r.householdAnnualDividend.None? && r.netAnnualBenefit.None?
      && r.adultMonthlyDividend.None? && r.householdMonthlyDividend.None? && r.netMonthlyBenefit.None?
    // ... and a present one leaves them all present
    ensures r.adultAnnualDividend.Some? ==>
      && r.householdAnnualDividend.Some? && r.netAnnualBenefit.Some?
      && r.adultMonthlyDividend.Some? && r.householdMonthlyDividend.Some? && r.netMonthlyBenefit.Some?
    // the total extra cost and its monthly figure are always numbers
    ensures r.totalMonthlyExtraCost.Some?
    ensures 12.0 * r.totalMonthlyExtraCost.value == r.totalAnnualExtraCost
    ensures r.netAnnualBenefit.Some? ==>
      r.netAnnualBenefit.value + r.totalAnnualExtraCost == r.householdAnnualDividend.value
    ensures r.netMonthlyBenefit.Some? ==> 12.0 * r.netMonthlyBenefit.value == r.netAnnualBenefit.value
    // each monthly dividend is a twelfth of its own annual figure
    ensures r.adultMonthlyDividend.Some? ==> 12.0 * r.adultMonthlyDividend.value == r.adultAnnualDividend.value
    ensures r.householdMonthlyDividend.Some? ==>
      12.0 * r.householdMonthlyDividend.value == r.householdAnnualDividend.value
  {
    var grossRevenue := GrossRevenue(p.carbonPrice, p.nationalEmissions);
    var adultAnnual := PerAdultDividend(p.carbonPrice, p.nationalEmissions, p.householdRebateShare,
                                        Finite(p.population), Finite(p.adultShare));
    var householdAnnual := HouseholdDividend(u.numAdults, u.numChildren, p.childShareFactor, adultAnnual);
    var perKwh := ExtraCostPerUnit(p.carbonPrice, p.gridEmissionsFactor, p.passThroughElectricity);
    var perGj := ExtraCostPerUnit(p.carbonPrice, p.gasEmissionsFactor, p.passThroughGas);
    var perLitre := ExtraCostPerUnit(p.carbonPrice, p.petrolEmissionsFactor, p.passThroughPetrol);
    var elec := AnnualFuelCost(u.annualElectricityKwh, perKwh);
    var gas := AnnualFuelCost(u.annualGasGj, perGj);
    var petrol := AnnualFuelCost(u.annualPetrolL, perLitre);
    var total := TotalExtraHouseholdCost(elec, gas, petrol);
    var net := NetBenefit(householdAnnual, total);
    Results(grossRevenue, adultAnnual, householdAnnual, perKwh, perGj, perLitre, elec, gas, petrol, total, net,
            MonthlyValue(adultAnnual), MonthlyValue(householdAnnual), MonthlyValue(Some(total)), MonthlyValue(net))
  }

  /** The cost figures never depend on the dividend side of the policy:
      changing the emissions, rebate share, population, adult share or child
      share factor leaves them untouched. */
  lemma CostsIndependentOfDividend(p1: PolicyAssumptions, p2: PolicyAssumptions, u: UserInputs)
    requires p1.carbonPrice == p2.carbonPrice
    requires p1.gridEmissionsFactor == p2.gridEmissionsFactor
    requires p1.gasEmissionsFactor == p2.gasEmissionsFactor
    requires p1.petrolEmissionsFactor == p2.petrolEmissionsFactor
    requires p1.passThroughElectricity == p2.passThroughElectricity
    requires p1.passThroughGas == p2.passThroughGas
    requires p1.passThroughPetrol == p2.passThroughPetrol
    ensures SameCosts(Calculate(p1, u), Calculate(p2, u))
  {}

  /** With in-range inputs and a non-negative carbon price, every cost and
      every dividend is non-negative; only the net benefit can go below zero. */
  lemma ResultsNonNegative(p: PolicyAssumptions, u: UserInputs)
    requires PolicyInRange(p) && p.carbonPrice >= 0.0 && NonNegativeHousehold(u)
    ensures var r := Calculate(p, u);
      && r.grossRevenue >= 0.0
      && r.extraCostPerKwh >= 0.0 && r.extraCostPerGj >= 0.0 && r.extraCostPerLitre >= 0.0
      && r.totalAnnualExtraCost >= 0.0
      && (r.adultAnnualDividend.Some? ==> r.adultAnnualDividend.value >= 0.0)
      && (r.householdAnnualDividend.Some? ==> r.householdAnnualDividend.value >= 0.0)
  {
    var r := Calculate(p, u);
    if r.adultAnnualDividend.Some? {
      DividendBounds(p.carbonPrice, p.nationalEmissions, p.householdRebateShare,
                     Finite(p.population), Finite(p.adultShare));
    }
  }

  /** The revenue and dividend figures come from the policy and household
      values that feed them: revenue from price and emissions, the dividend
      from the households' share of that revenue over the adult population,
      and the household dividend from the household's own adults and
      children. */
  lemma CalculateDividendInputs(p: PolicyAssumptions, u: UserInputs)
    ensures var r := Calculate(p, u);
      && r.grossRevenue == p.carbonPrice * p.nationalEmissions
      && (r.adultAnnualDividend.Some? ==>
            r.adultAnnualDividend.value * (p.population * p.adultShare) == p.householdRebateShare * r.grossRevenue)
      && (r.householdAnnualDividend.Some? ==>
            r.householdAnnualDividend.value
              == u.numAdults * r.adultAnnualDividend.value
                 + u.numChildren * (p.childShareFactor * r.adultAnnualDividend.value))
  {
    var r := Calculate(p, u);
    if r.adultAnnualDividend.Some? {
      HouseholdDividendShares(u.numAdults, u.numChildren, p.childShareFactor, r.adultAnnualDividend.value);
    }
  }

  /** Each per-unit cost uses its own fuel's emissions factor and
      pass-through rate, and each annual fuel cost is the passed-on carbon
      cost of that fuel's usage. */
  lemma CalculateFuelInputs(p: PolicyAssumptions, u: UserInputs)
    ensures var r := Calculate(p, u);
      && r.extraCostPerKwh == p.passThroughElectricity * (p.carbonPrice * p.gridEmissionsFactor)
      && r.extraCostPerGj == p.passThroughGas * (p.carbonPrice * p.gasEmissionsFactor)
      && r.extraCostPerLitre == p.passThroughPetrol * (p.carbonPrice * p.petrolEmissionsFactor)
    ensures var r := Calculate(p, u);
      var fuels := HouseholdFuels(p, u);
      && r.annualElecCost == PassedOnCost([fuels[0]], p.carbonPrice)
      && r.annualGasCost == PassedOnCost([fuels[1]], p.carbonPrice)
      && r.annualPetrolCost == PassedOnCost([fuels[2]], p.carbonPrice)
  {
    var fuels := HouseholdFuels(p, u);
    FuelCostIsPassedOn(fuels[0], p.carbonPrice);
    FuelCostIsPassedOn(fuels[1], p.carbonPrice);
    FuelCostIsPassedOn(fuels[2], p.carbonPrice);
    assert [fuels[0]][1..] == [] && [fuels[1]][1..] == [] && [fuels[2]][1..] == [];
  }

  /** Twelve monthly figures balance like the annual ones: the monthly net
      benefit plus the monthly extra cost is the monthly household dividend. */
  lemma MonthlyFiguresBalance(p: PolicyAssumptions, u: UserInputs)
    ensures var r := Calculate(p, u);
      r.netMonthlyBenefit.Some? ==>
        && r.householdMonthlyDividend.Some? && r.totalMonthlyExtraCost.Some?
        && r.netMonthlyBenefit.value + r.totalMonthlyExtraCost.value == r.householdMonthlyDividend.value
  {
    var r := Calculate(p, u);
    if r.netMonthlyBenefit.Some? {
      assert 12.0 * r.householdMonthlyDividend.value == r.householdAnnualDividend.value;
      assert 12.0 * (r.netMonthlyBenefit.value + r.totalMonthlyExtraCost.value) == r.householdAnnualDividend.value;
    }
  }

  /** Electricity, gas and petrol as the page passes them to the calculator. */
  function HouseholdFuels(p: PolicyAssumptions, u: UserInputs): seq<Fuel>
  {
    [Fuel(u.annualElectricityKwh, p.gridEmissionsFactor, p.passThroughElectricity),
     Fuel(u.annualGasGj, p.gasEmissionsFactor, p.passThroughGas),
     Fuel(u.annualPetrolL, p.petrolEmissionsFactor, p.passThroughPetrol)]
  }

  /** The page's total extra cost is the fuel-by-fuel passed-on carbon cost. */
  lemma TotalExtraCostIsPassedOn(p: PolicyAssumptions, u: UserInputs)
    ensures Calculate(p, u).totalAnnualExtraCost == PassedOnCost(HouseholdFuels(p, u), p.carbonPrice)
  {
    var fuels := HouseholdFuels(p, u);
    TotalIsPassedOnCost(fuels[0], fuels[1], fuels[2], p.carbonPrice);
  }

  /** For in-range inputs the household never pays more in extra costs than
      the revenue the carbon price raises on its own emissions, and with full
      pass-through on every fuel it pays exactly that. */
  lemma ExtraCostAtMostOwnRevenue(p: PolicyAssumptions, u: UserInputs)
    requires PolicyInRange(p) && p.carbonPrice >= 0.0 && NonNegativeHousehold(u)
    ensures var revenue := GrossRevenue(p.carbonPrice, HouseholdEmissions(HouseholdFuels(p, u)));
      && Calculate(p, u).totalAnnualExtraCost <= revenue
      && (p.passThroughElectricity == 1.0 && p.passThroughGas == 1.0 && p.passThroughPetrol == 1.0 ==>
            Calculate(p, u).totalAnnualExtraCost == revenue)
  {
    var fuels := HouseholdFuels(p, u);
    TotalExtraCostIsPassedOn(p, u);
    PassedOnCostBounds(fuels, p.carbonPrice);
    if p.passThroughElectricity == 1.0 && p.passThroughGas == 1.0 && p.passThroughPetrol == 1.0 {
      FullPassThroughPaysOwnRevenue(fuels, p.carbonPrice);
    }
  }

  // ---------------------------------------------------------------------
  // What the page shows
  // ---------------------------------------------------------------------

  /** The headline: unavailable, or the size of the household's net benefit
      or net cost (always shown as a non-negative amount). */
  datatype Headline = Unavailable | NetBenefitOf(amount: real) | NetCostOf(amount: real)

  /** The text of every output cell after one update. `populationError` and
      `adultShareError` are the messages the update itself writes over the
      validator's when a divisor is not positive; `None` leaves the
      validator's message in place. */
  datatype Display = Display(
    headline: Headline,
    adultDividendAnnual: string,
    adultDividendMonthly: string,
    householdDividendAnnual: string,
    householdDividendMonthly: string,
    netBenefitAnnual: string,
    netBenefitMonthly: string,
    extraCostAnnual: string,
    extraCostMonthly: string,
    populationError: Option<string>,
    adultShareError: Option<string>,
    detailsGrossRevenue: string,
    detailsPerAdultDividend: string,
    detailsCostElectricityPerUnit: string,
    detailsCostGasPerUnit: string,
    detailsCostPetrolPerUnit: string,
    detailsAnnualCostElectricity: string,
    detailsAnnualCostGas: string,
    detailsAnnualCostPetrol: string,
    detailsTotalAnnualHouseholdCost: string,
    detailsAnnualHouseholdDividend: string,
    detailsNetAnnualBenefit: string)

  /** The display for validated inputs: one branch for a missing dividend,
      which writes placeholders into the dividend cells, and one for the
      normal case. */
  function Show(p: PolicyAssumptions, u: UserInputs, locale: Locale): (d: Display)
    // the placeholder branch agrees with formatting the missing values:
    // every cell is its result formatted, the net benefit with its sign
    ensures var r := Calculate(p, u);
      && d.adultDividendAnnual == FormatCurrency(r.adultAnnualDividend, false, locale)
      && d.adultDividendMonthly == FormatCurrency(r.adultMonthlyDividend, false, locale)
      && d.householdDividendAnnual == FormatCurrency(r.householdAnnualDividend, false, locale)
      && d.householdDividendMonthly == FormatCurrency(r.householdMonthlyDividend, false, locale)
      && d.netBenefitAnnual == FormatCurrency(r.netAnnualBenefit, true, locale)
      && d.netBenefitMonthly == FormatCurrency(r.netMonthlyBenefit, true, locale)
      && d.extraCostAnnual == FormatCurrency(Some(r.totalAnnualExtraCost), false, locale)
      && d.extraCostMonthly == FormatCurrency(r.totalMonthlyExtraCost, false, locale)
    ensures d.headline.Unavailable? <==> (p.population <= 0.0 || p.adultShare <= 0.0)
    // the headline amount is the magnitude of the net benefit
    ensures d.headline.NetBenefitOf? ==>
      d.headline.amount >= 0.0 && Calculate(p, u).netAnnualBenefit == Some(d.headline.amount)
    ensures d.headline.NetCostOf? ==>
      d.headline.amount > 0.0 && Calculate(p, u).netAnnualBenefit.Some?
      && Calculate(p, u).netAnnualBenefit.value == -d.headline.amount
    ensures d.populationError.Some? <==> p.population <= 0.0
    ensures d.adultShareError.Some? <==> p.adultShare <= 0.0
    // the details tab shows every intermediate figure: per-unit costs with
    // their units, the net benefit with its sign ...
    ensures var r := Calculate(p, u);
      && d.detailsGrossRevenue == FormatCurrency(Some(r.grossRevenue), false, locale)
      && d.detailsPerAdultDividend == FormatCurrency(r.adultAnnualDividend, false, locale)
      && d.detailsCostElectricityPerUnit == locale(r.extraCostPerKwh) + "/kWh"
      && d.detailsCostGasPerUnit == locale(r.extraCostPerGj) + "/GJ"
      && d.detailsCostPetrolPerUnit == locale(r.extraCostPerLitre) + "/L"
      && d.detailsAnnualCostElectricity == FormatCurrency(Some(r.annualElecCost), false, locale)
      && d.detailsAnnualCostGas == FormatCurrency(Some(r.annualGasCost), false, locale)
      && d.detailsAnnualCostPetrol == FormatCurrency(Some(r.annualPetrolCost), false, locale)
      && d.detailsTotalAnnualHouseholdCost == FormatCurrency(Some(r.totalAnnualExtraCost), false, locale)
      && d.detailsAnnualHouseholdDividend == FormatCurrency(r.householdAnnualDividend, false, locale)
      && d.detailsNetAnnualBenefit == FormatCurrency(r.netAnnualBenefit, true, locale)
    // ... and the placeholder for the three that need the dividend
    ensures p.population <= 0.0 || p.adultShare <= 0.0 ==>
      && d.detailsPerAdultDividend == Placeholder
      && d.detailsAnnualHouseholdDividend == Placeholder
      && d.detailsNetAnnualBenefit == Placeholder
  {
    var r := Calculate(p, u);
    var populationError := if p.population <= 0.0 then Some(PopulationMsg) else None;
    var adultShareError := if p.adultShare <= 0.0 then Some(AdultShareMsg) else None;
    var details := (
      FormatCurrency(Some(r.grossRevenue), false, locale),
      FormatCurrency(r.adultAnnualDividend, false, locale),
      FormatUnitCost(Some(r.extraCostPerKwh), "/kWh", locale),
      FormatUnitCost(Some(r.extraCostPerGj), "/GJ", locale),
      FormatUnitCost(Some(r.extraCostPerLitre), "/L", locale),
      FormatCurrency(Some(r.annualElecCost), false, locale),
      FormatCurrency(Some(r.annualGasCost), false, locale),
      FormatCurrency(Some(r.annualPetrolCost), false, locale),
      FormatCurrency(Some(r.totalAnnualExtraCost), false, locale),
      FormatCurrency(r.householdAnnualDividend, false, locale),
      FormatCurrency(r.netAnnualBenefit, true, locale));
    if r.adultAnnualDividend.None? then
      Display(
        Unavailable,
        Placeholder, Placeholder, Placeholder, Placeholder, Placeholder, Placeholder,
        FormatCurrency(Some(r.totalAnnualExtraCost), false, locale),
        FormatCurrency(r.totalMonthlyExtraCost, false, locale),
        populationError, adultShareError,
        details.0, details.1, details.2, details.3, details.4, details.5,
        details.6, details.7, details.8, details.9, details.10)
    else
      var net := r.netAnnualBenefit.value;
      Display(
        if net >= 0.0 then NetBenefitOf(net) else NetCostOf(-net),
        FormatCurrency(r.adultAnnualDividend, false, locale),
        FormatCurrency(r.adultMonthlyDividend, false, locale),
        FormatCurrency(r.householdAnnualDividend, false, locale),
        FormatCurrency(r.householdMonthlyDividend, false, locale),
        FormatCurrency(r.netAnnualBenefit, true, locale),
        FormatCurrency(r.netMonthlyBenefit, true, locale),
        FormatCurrency(Some(r.totalAnnualExtraCost), false, locale),
        FormatCurrency(r.totalMonthlyExtraCost, false, locale),
        populationError, adultShareError,
        details.0, details.1, details.2, details.3, details.4, details.5,
        details.6, details.7, details.8, details.9, details.10)
  }

  /** Everything one update writes: the output cells, and the final text of
      every field's error element. */
  datatype PageUpdate = PageUpdate(display: Display, userErrors: UserFormErrors, policyErrors: PolicyFormErrors)

  /** A finite entry of at most 0. */
  predicate NotPositive(text: FieldText)
  {
    text.Entered? && text.parsed.Finite? && text.parsed.value <= 0.0
  }

  /** One full update: validate both forms (each validation writing its
      field's message), show the results, and write the population and
      adult-share messages over the validators' when those values are not
      positive. */
  function PerformCalculationsAndUpdateDisplay(userForm: UserForm, policyForm: PolicyForm,
                                               showNumber: real -> string, locale: Locale): (page: PageUpdate)
    // validation lets a non-computable dividend through in one way only:
    // a population or adult share typed as exactly 0
    ensures page.display.headline.Unavailable? <==>
      (policyForm.population == Entered(Finite(0.0)) || policyForm.adultShare == Entered(Finite(0.0)))
    ensures page.display.populationError.Some? <==> policyForm.population == Entered(Finite(0.0))
    ensures page.display.adultShareError.Some? <==> policyForm.adultShare == Entered(Finite(0.0))
    // the figures shown are those of the validated forms: the extra cost is
    // the passed-on carbon cost of the household's typed usage, and the
    // headline reports the net benefit of the validated inputs
    ensures var p := GetPolicyAssumptions(policyForm, showNumber);
      var u := GetUserInputs(userForm, showNumber);
      && page.display.extraCostAnnual == locale(PassedOnCost(HouseholdFuels(p, u), p.carbonPrice))
      && (page.display.headline.NetBenefitOf? ==>
            Calculate(p, u).netAnnualBenefit.Some?
            && Calculate(p, u).netAnnualBenefit.value == page.display.headline.amount)
      && (page.display.headline.NetCostOf? ==>
            Calculate(p, u).netAnnualBenefit.Some?
            && Calculate(p, u).netAnnualBenefit.value == -page.display.headline.amount)
    // every cell is the one `Show` writes for the validated forms
    ensures page.display == Show(GetPolicyAssumptions(policyForm, showNumber),
                                 GetUserInputs(userForm, showNumber), locale)
    // every field ends up showing its validator's message, except that the
    // update writes over the population and adult-share ones
    ensures page.userErrors == UserFieldErrors(userForm, showNumber)
    ensures page.policyErrors == PolicyErrorsAfterUpdate(policyForm, showNumber)
  {
    var p := GetPolicyAssumptions(policyForm, showNumber);
    var u := GetUserInputs(userForm, showNumber);
    TotalExtraCostIsPassedOn(p, u);
    var display := Show(p, u, locale);
    var validated := PolicyFieldErrors(policyForm, showNumber);
    var populationText := if display.populationError.Some? then display.populationError.value else validated.population;
    var adultShareText := if display.adultShareError.Some? then display.adultShareError.value else validated.adultShare;
    PageUpdate(display, UserFieldErrors(userForm, showNumber),
               validated.(population := populationText, adultShare := adultShareText))
  }

  /** The background fields' messages after an update: the validators',
      with the population and adult-share messages written over them when
      the validated values are not positive. */
  function PolicyErrorsAfterUpdate(form: PolicyForm, showNumber: real -> string): (e: PolicyFormErrors)
    // the population field ends up silent exactly for a blank or positive
    // entry, and shows its special message exactly for an entry <= 0
    ensures e.population == "" <==>
      (form.population.Blank? || (form.population.parsed.Finite? && form.population.parsed.value > 0.0))
    ensures e.population == PopulationMsg <==> NotPositive(form.population)
    ensures form.population == Entered(NonFinite) ==> e.population == NotANumberText
    // likewise the adult share, which must also be at most 1
    ensures e.adultShare == "" <==>
      (form.adultShare.Blank? || (form.adultShare.parsed.Finite? && 0.0 < form.adultShare.parsed.value <= 1.0))
    ensures e.adultShare == AdultShareMsg <==> NotPositive(form.adultShare)
    ensures AboveOne(form.adultShare) ==> e.adultShare == NoMoreThanText(1.0, showNumber)
    ensures form.adultShare == Entered(NonFinite) ==> e.adultShare == NotANumberText
    // every other field keeps its validator's message
    ensures e == PolicyFieldErrors(form, showNumber).(population := e.population, adultShare := e.adultShare)
  {
    var p := GetPolicyAssumptions(form, showNumber);
    var validated := PolicyFieldErrors(form, showNumber);
    RangeMessageIsNotSpecial(1.0, showNumber);
    DividendFieldMessages(form, showNumber);
    validated.(population := if p.population <= 0.0 then PopulationMsg else validated.population,
               adultShare := if p.adultShare <= 0.0 then AdultShareMsg else validated.adultShare)
  }

  /** A household form with every field left blank. */
  const BlankUserForm := UserForm(Blank, Blank, Blank, Blank, Blank)

  /** A background form with every validated field left blank and the given
      carbon-price selection. */
  function BlankPolicyForm(carbonPrice: Option<real>): (form: PolicyForm)
    ensures BlankPolicyFields(form) && form.carbonPrice == carbonPrice
  {
    PolicyForm(carbonPrice, Blank, Blank, Blank, Blank, Blank, Blank, Blank, Blank, Blank, Blank, Blank)
  }

  /** Blank fields and an unreadable price selection give the default
      scenario, whose two-adult household receives about
      A$1,774 in dividends, pays A$410 in extra costs and comes out roughly
      A$1,364 a year ahead. */
  lemma DefaultScenario(showNumber: real -> string, locale: Locale)
    ensures GetUserInputs(BlankUserForm, showNumber) == DefaultUserInputs
    ensures GetPolicyAssumptions(BlankPolicyForm(None), showNumber) == DefaultPolicy
    ensures var r := Calculate(DefaultPolicy, DefaultUserInputs);
      && r.totalAnnualExtraCost == 410.0
      && r.householdAnnualDividend.Some?
      && r.householdAnnualDividend.value == 2.0 * r.adultAnnualDividend.value
      && 1774.0 < r.householdAnnualDividend.value < 1776.0
      && 1364.0 < r.netAnnualBenefit.value < 1366.0
    ensures var d := PerformCalculationsAndUpdateDisplay(BlankUserForm, BlankPolicyForm(None), showNumber, locale).display;
      d.headline.NetBenefitOf? && 1364.0 < d.headline.amount < 1366.0
  {
    var u := GetUserInputs(BlankUserForm, showNumber);
    var p := GetPolicyAssumptions(BlankPolicyForm(None), showNumber);
    assert p == DefaultPolicy;
    DefaultFuelCosts();
    DefaultPerAdultDividend();
  }

  /** Typing 0 into the population field is accepted by validation, yet no
      dividend figure is shown: the six dividend cells of the table and the
      three dividend-dependent details show the placeholder, the extra-cost
      cells still show amounts, and the population field ends up showing its
      special message. */
  lemma ZeroPopulationShowsPlaceholders(userForm: UserForm, policyForm: PolicyForm,
                                        showNumber: real -> string, locale: Locale)
    requires LocaleWellFormed(locale)
    requires policyForm.population == Entered(Finite(0.0))
    ensures var d := PerformCalculationsAndUpdateDisplay(userForm, policyForm, showNumber, locale).display;
      && d.headline.Unavailable?
      && d.adultDividendAnnual == Placeholder && d.adultDividendMonthly == Placeholder
      && d.householdDividendAnnual == Placeholder && d.householdDividendMonthly == Placeholder
      && d.netBenefitAnnual == Placeholder && d.netBenefitMonthly == Placeholder
      && d.extraCostAnnual != Placeholder && d.extraCostMonthly != Placeholder
      && d.detailsPerAdultDividend == Placeholder && d.detailsAnnualHouseholdDividend == Placeholder
      && d.detailsNetAnnualBenefit == Placeholder
      && d.populationError == Some(PopulationMsg)
    ensures PerformCalculationsAndUpdateDisplay(userForm, policyForm, showNumber, locale).policyErrors.population
         == PopulationMsg
  {
    var p := GetPolicyAssumptions(policyForm, showNumber);
    var r := Calculate(p, GetUserInputs(userForm, showNumber));
    FormatCurrencyMarkers(Some(r.totalAnnualExtraCost), false, locale);
    FormatCurrencyMarkers(r.totalMonthlyExtraCost, false, locale);
  }
}

=== FILE: validation.dfy ===
/**
 * How the page turns form fields into calculator inputs. Every field goes
 * through one fail-closed validator: a blank field silently takes its
 * default, and a field that does not parse, or parses outside its range,
 * takes its default and shows an error. Parsing itself (`trim` and
 * `parseFloat`) is abstracted into `FieldText`.
 */
module Validation {
  import opened Values
  import opened Calculator

  /** A field's text after trimming, as validation sees it: empty, or
      whatever `parseFloat` made of it. */
  datatype FieldText = Blank | Entered(parsed: Num)

  /** The options of one validation. `max == None` is the default bound
      `Infinity`; `isValid == None` is an absent extra predicate. */
  datatype Options = Options(min: real, max: Option<real>, specialMsg: string, isValid: Option<real -> bool>)

  /** The options `{}`: at least 0, no upper bound, no special message. */
  const NoOptions := Options(0.0, None, "", None)

  /** The options `{ min: 0, max: 1 }` used for rates and shares. */
  const UnitInterval := Options(0.0, Some(1.0), "", None)

  /** The two special messages share their tail; each is kept as two short
      literals so that the verifier can see their characters. */
  const DividendTail := "for dividend calculations."
  const PopulationMsg := "Population must be greater than 0 " + DividendTail
  const AdultShareMsg := "Adult share must be greater than 0 " + DividendTail

  /** The population field: `min: 0` and a special message, but no `isValid`
      predicate. */
  const PopulationOptions := Options(0.0, None, PopulationMsg, None)

  /** The adult-share field: within [0, 1], with a special message, but no
      `isValid` predicate. */
  const AdultShareOptions := Options(0.0, Some(1.0), AdultShareMsg, None)

  const NotANumberText := "Invalid: must be a number."

  /** The message for an entry below the field's lower bound, when the field
      has no special message. */
  function AtLeastText(min: real, showNumber: real -> string): string
  {
    "Invalid: must be at least " + showNumber(min) + "."
  }

  /** The message for an entry above the field's upper bound. */
  function NoMoreThanText(max: real, showNumber: real -> string): string
  {
    "Invalid: must be no more than " + showNumber(max) + "."
  }

  /** A range message is never one of the special messages: it starts
      with "Invalid". */
  lemma RangeMessageIsNotSpecial(max: real, showNumber: real -> string)
    ensures NoMoreThanText(max, showNumber) != AdultShareMsg
    ensures NoMoreThanText(max, showNumber) != PopulationMsg
  {
    var prefix := "Invalid: must be no more than ";
    var t := NoMoreThanText(max, showNumber);
    assert t == prefix + (showNumber(max) + ".");
    assert t[0] == prefix[0] == 'I';
    assert AdultShareMsg[0] == "Adult share must be greater than 0 "[0] == 'A';
    assert PopulationMsg[0] == "Population must be greater than 0 "[0] == 'P';
  }

  /** Tonnes per megatonne: national emissions are typed in Mt. */
  const TonnesPerMegatonne: real := 1000000.0

  /** What a validation returns, together with the text it leaves in the
      field's error element (empty when there is no error). */
  datatype Validated = Validated(isValid: bool, value: real, errorText: string)

  /** JavaScript truthiness of a string. */
  predicate Truthy(s: string)
  {
    |s| > 0
  }

  /** The range a finite entry must lie in. */
  predicate InRange(x: real, options: Options)
  {
    options.min <= x && (options.max.None? || x <= options.max.value)
  }

  /** Independent statement of which finite entries are accepted: those in
      range that the optional extra predicate (consulted only alongside a
      special message) does not refuse. */
  predicate Acceptable(x: real, options: Options)
  {
    && InRange(x, options)
    && !(Truthy(options.specialMsg) && options.isValid.Some? && !options.isValid.value(x))
  }

  /** The fail-closed field validator. `showNumber` is JavaScript's
      number-to-string conversion used inside the range messages. */
  function ValidateInput(text: FieldText, defaultValue: real, options: Options,
                         showNumber: real -> string): (r: Validated)
    // a blank field falls back to the default without complaint
    ensures text.Blank? ==> r.isValid && r.value == defaultValue && r.errorText == ""
    // fail closed: a rejected entry always carries the default
    ensures !r.isValid ==> r.value == defaultValue
    // an error message is shown exactly when the entry is rejected
    ensures r.isValid <==> r.errorText == ""
    // an accepted entry is exactly the parsed number, and it is in range
    ensures r.isValid && text.Entered? ==>
      text.parsed.Finite? && r.value == text.parsed.value && InRange(r.value, options)
    ensures text.Entered? && text.parsed.NonFinite? ==> !r.isValid && r.errorText == NotANumberText
    ensures text.Entered? && text.parsed.Finite? ==> (r.isValid <==> Acceptable(text.parsed.value, options))
    // the lower bound is checked first, and reports the special message when there is one
    ensures text.Entered? && text.parsed.Finite? && text.parsed.value < options.min ==>
      r.errorText == (if Truthy(options.specialMsg) then options.specialMsg
                      else AtLeastText(options.min, showNumber))
    // above the upper bound the message names that bound
    ensures text.Entered? && text.parsed.Finite? && options.min <= text.parsed.value
            && options.max.Some? && text.parsed.value > options.max.value ==>
      r.errorText == NoMoreThanText(options.max.value, showNumber)
    // an in-range entry the extra predicate refuses reports the special message
    ensures text.Entered? && text.parsed.Finite? && InRange(text.parsed.value, options)
            && !Acceptable(text.parsed.value, options) ==>
      r.errorText == options.specialMsg
  {
    match text
    case Blank => Validated(true, defaultValue, "")
    case Entered(NonFinite) => Validated(false, defaultValue, NotANumberText)
    case Entered(Finite(x)) =>
      if x < options.min then
        Validated(false, defaultValue,
                  if Truthy(options.specialMsg) then options.specialMsg
                  else AtLeastText(options.min, showNumber))
      else if options.max.Some? && x > options.max.value then
        Validated(false, defaultValue, NoMoreThanText(options.max.value, showNumber))
      else if Truthy(options.specialMsg) && options.isValid.Some? && !options.isValid.value(x) then
        Validated(false, defaultValue, options.specialMsg)
      else
        Validated(true, x, "")
  }

  /** A population of 0 passes validation (the population field has no
      `isValid` predicate, so its special message only fires below 0), and
      the dividend computed from it is then `None`. A negative population is
      rejected with the special message. */
  lemma PopulationZeroAccepted(showNumber: real -> string, carbonPrice: real, nationalEmissions: real,
                               householdRebateShare: real, adultShare: Num)
    ensures var r := ValidateInput(Entered(Finite(0.0)), DefaultPolicy.population, PopulationOptions, showNumber);
      && r.isValid && r.value == 0.0 && r.errorText == ""
      && PerAdultDividend(carbonPrice, nationalEmissions, householdRebateShare, Finite(r.value), adultShare).None?
    ensures forall x: real :: x < 0.0 ==>
      ValidateInput(Entered(Finite(x)), DefaultPolicy.population, PopulationOptions, showNumber)
        == Validated(false, DefaultPolicy.population, PopulationMsg)
  {}

  // ---------------------------------------------------------------------
  // Gathering the forms
  // ---------------------------------------------------------------------

  /** The five household fields of the main calculator tab. */
  datatype UserForm = UserForm(
    numAdults: FieldText,
    numChildren: FieldText,
    annualElectricityKwh: FieldText,
    annualGasGj: FieldText,
    annualPetrolL: FieldText)

  /** The value a validated field contributes: a finite entry within the
      field's range as typed, anything else the field's default. */
  predicate TakesEntryOrDefault(text: FieldText, defaultValue: real, options: Options, v: real)
  {
    if text.Entered? && text.parsed.Finite? && InRange(text.parsed.value, options) then v == text.parsed.value
    else v == defaultValue
  }

  /** Reads the household fields; every field falls back to its own default. */
  function GetUserInputs(form: UserForm, showNumber: real -> string): (u: UserInputs)
    ensures TakesEntryOrDefault(form.numAdults, DefaultUserInputs.numAdults, NoOptions, u.numAdults)
    ensures TakesEntryOrDefault(form.numChildren, DefaultUserInputs.numChildren, NoOptions, u.numChildren)
    ensures TakesEntryOrDefault(form.annualElectricityKwh, DefaultUserInputs.annualElectricityKwh, NoOptions, u.annualElectricityKwh)
    ensures TakesEntryOrDefault(form.annualGasGj, DefaultUserInputs.annualGasGj, NoOptions, u.annualGasGj)
    ensures TakesEntryOrDefault(form.annualPetrolL, DefaultUserInputs.annualPetrolL, NoOptions, u.annualPetrolL)
    ensures NonNegativeHousehold(u)
  {
    UserInputs(
      FieldValue(form.numAdults, DefaultUserInputs.numAdults, NoOptions, showNumber),
      FieldValue(form.numChildren, DefaultUserInputs.numChildren, NoOptions, showNumber),
      FieldValue(form.annualElectricityKwh, DefaultUserInputs.annualElectricityKwh, NoOptions, showNumber),
      FieldValue(form.annualGasGj, DefaultUserInputs.annualGasGj, NoOptions, showNumber),
      FieldValue(form.annualPetrolL, DefaultUserInputs.annualPetrolL, NoOptions, showNumber))
  }

  /** What a field's error element says after validation: nothing for a
      blank field or an accepted entry, the not-a-number message for text
      that does not parse, and some message for any other rejected entry. */
  predicate ReportsEntry(text: FieldText, options: Options, message: string)
  {
    && (message == "" <==> (text.Blank? || (text.parsed.Finite? && Acceptable(text.parsed.value, options))))
    && (text == Entered(NonFinite) ==> message == NotANumberText)
  }

  /** The value one field's validation yields: an acceptable finite entry as
      typed, anything else the field's default. */
  function FieldValue(text: FieldText, defaultValue: real, options: Options,
                      showNumber: real -> string): (v: real)
    ensures if text.Entered? && text.parsed.Finite? && Acceptable(text.parsed.value, options)
            then v == text.parsed.value else v == defaultValue
  {
    ValidateInput(text, defaultValue, options, showNumber).value
  }

  /** The message one field's validation leaves in its error element. */
  function FieldError(text: FieldText, defaultValue: real, options: Options,
                      showNumber: real -> string): (message: string)
    ensures ReportsEntry(text, options, message)
    ensures text.Entered? && text.parsed.Finite? && text.parsed.value < options.min ==>
      message == (if Truthy(options.specialMsg) then options.specialMsg
                  else AtLeastText(options.min, showNumber))
    ensures text.Entered? && text.parsed.Finite? && options.min <= text.parsed.value
            && options.max.Some? && text.parsed.value > options.max.value ==>
      message == NoMoreThanText(options.max.value, showNumber)
  {
    ValidateInput(text, defaultValue, options, showNumber).errorText
  }

  /** A finite entry below 0. */
  predicate BelowZero(text: FieldText)
  {
    text.Entered? && text.parsed.Finite? && text.parsed.value < 0.0
  }

  /** A finite entry above 1. */
  predicate AboveOne(text: FieldText)
  {
    text.Entered? && text.parsed.Finite? && text.parsed.value > 1.0
  }

  /** The error text each household field shows, in form order. */
  datatype UserFormErrors = UserFormErrors(
    numAdults: string,
    numChildren: string,
    annualElectricityKwh: string,
    annualGasGj: string,
    annualPetrolL: string)

  /** The messages the validation of the household fields writes. */
  function UserFieldErrors(form: UserForm, showNumber: real -> string): (e: UserFormErrors)
    ensures ReportsEntry(form.numAdults, NoOptions, e.numAdults)
    ensures ReportsEntry(form.numChildren, NoOptions, e.numChildren)
    ensures ReportsEntry(form.annualElectricityKwh, NoOptions, e.annualElectricityKwh)
    ensures ReportsEntry(form.annualGasGj, NoOptions, e.annualGasGj)
    ensures ReportsEntry(form.annualPetrolL, NoOptions, e.annualPetrolL)
    // a negative household quantity is reported against the bound 0
    ensures BelowZero(form.numAdults) ==> e.numAdults == AtLeastText(0.0, showNumber)
    ensures BelowZero(form.numChildren) ==> e.numChildren == AtLeastText(0.0, showNumber)
    ensures BelowZero(form.annualElectricityKwh) ==> e.annualElectricityKwh == AtLeastText(0.0, showNumber)
    ensures BelowZero(form.annualGasGj) ==> e.annualGasGj == AtLeastText(0.0, showNumber)
    ensures BelowZero(form.annualPetrolL) ==> e.annualPetrolL == AtLeastText(0.0, showNumber)
  {
    UserFormErrors(
      FieldError(form.numAdults, DefaultUserInputs.numAdults, NoOptions, showNumber),
      FieldError(form.numChildren, DefaultUserInputs.numChildren, NoOptions, showNumber),
      FieldError(form.annualElectricityKwh, DefaultUserInputs.annualElectricityKwh, NoOptions, showNumber),
      FieldError(form.annualGasGj, DefaultUserInputs.annualGasGj, NoOptions, showNumber),
      FieldError(form.annualPetrolL, DefaultUserInputs.annualPetrolL, NoOptions, showNumber))
  }

  /** Every household quantity is a non-negative number. */
  predicate NonNegativeHousehold(u: UserInputs)
  {
    && u.numAdults >= 0.0 && u.numChildren >= 0.0
    && u.annualElectricityKwh >= 0.0 && u.annualGasGj >= 0.0 && u.annualPetrolL >= 0.0
  }

  /** The background-assumption fields. The carbon price comes from a
      `<select>`, parsed without range checks (`None` is NaN). */
  datatype PolicyForm = PolicyForm(
    carbonPrice: Option<real>,
    nationalEmissionsMt: FieldText,
    householdRebateShare: FieldText,
    population: FieldText,
    adultShare: FieldText,
    childShareFactor: FieldText,
    gridEmissionsFactor: FieldText,
    gasEmissionsFactor: FieldText,
    petrolEmissionsFactor: FieldText,
    passThroughElectricity: FieldText,
    passThroughGas: FieldText,
    passThroughPetrol: FieldText)

  /** The error text each validated background field shows, in form order
      (the carbon-price selection has no error element). */
  datatype PolicyFormErrors = PolicyFormErrors(
    nationalEmissionsMt: string,
    householdRebateShare: string,
    population: string,
    adultShare: string,
    childShareFactor: string,
    gridEmissionsFactor: string,
    gasEmissionsFactor: string,
    petrolEmissionsFactor: string,
    passThroughElectricity: string,
    passThroughGas: string,
    passThroughPetrol: string)

  /** The messages the validation of the background fields writes. */
  function PolicyFieldErrors(form: PolicyForm, showNumber: real -> string): (e: PolicyFormErrors)
    ensures ReportsEntry(form.nationalEmissionsMt, NoOptions, e.nationalEmissionsMt)
    ensures ReportsEntry(form.householdRebateShare, UnitInterval, e.householdRebateShare)
    ensures ReportsEntry(form.population, PopulationOptions, e.population)
    ensures ReportsEntry(form.adultShare, AdultShareOptions, e.adultShare)
    ensures ReportsEntry(form.childShareFactor, NoOptions, e.childShareFactor)
    ensures ReportsEntry(form.gridEmissionsFactor, NoOptions, e.gridEmissionsFactor)
    ensures ReportsEntry(form.gasEmissionsFactor, NoOptions, e.gasEmissionsFactor)
    ensures ReportsEntry(form.petrolEmissionsFactor, NoOptions, e.petrolEmissionsFactor)
    ensures ReportsEntry(form.passThroughElectricity, UnitInterval, e.passThroughElectricity)
    ensures ReportsEntry(form.passThroughGas, UnitInterval, e.passThroughGas)
    ensures ReportsEntry(form.passThroughPetrol, UnitInterval, e.passThroughPetrol)
  {
    PolicyFormErrors(
      FieldError(form.nationalEmissionsMt, DefaultEmissionsMt, NoOptions, showNumber),
      FieldError(form.householdRebateShare, DefaultPolicy.householdRebateShare, UnitInterval, showNumber),
      FieldError(form.population, DefaultPolicy.population, PopulationOptions, showNumber),
      FieldError(form.adultShare, DefaultPolicy.adultShare, AdultShareOptions, showNumber),
      FieldError(form.childShareFactor, DefaultPolicy.childShareFactor, NoOptions, showNumber),
      FieldError(form.gridEmissionsFactor, DefaultPolicy.gridEmissionsFactor, NoOptions, showNumber),
      FieldError(form.gasEmissionsFactor, DefaultPolicy.gasEmissionsFactor, NoOptions, showNumber),
      FieldError(form.petrolEmissionsFactor, DefaultPolicy.petrolEmissionsFactor, NoOptions, showNumber),
      FieldError(form.passThroughElectricity, DefaultPolicy.passThroughElectricity, UnitInterval, showNumber),
      FieldError(form.passThroughGas, DefaultPolicy.passThroughGas, UnitInterval, showNumber),
      FieldError(form.passThroughPetrol, DefaultPolicy.passThroughPetrol, UnitInterval, showNumber))
  }

  /** The texts the population and adult-share validations write for an
      entry out of range: their special messages below 0, and the bound 1
      above 1 for the adult share. */
  lemma DividendFieldMessages(form: PolicyForm, showNumber: real -> string)
    ensures var e := PolicyFieldErrors(form, showNumber);
      && (BelowZero(form.population) ==> e.population == PopulationMsg)
      && (BelowZero(form.adultShare) ==> e.adultShare == AdultShareMsg)
      && (AboveOne(form.adultShare) ==> e.adultShare == NoMoreThanText(1.0, showNumber))
  {
  }

  /** The texts the other background fields' validations write for an entry
      out of range: the bound 0 below 0, and the bound 1 above 1 for the
      rebate share and the pass-through rates. */
  lemma PolicyFieldMessages(form: PolicyForm, showNumber: real -> string)
    ensures var e := PolicyFieldErrors(form, showNumber);
      var atLeastZero := AtLeastText(0.0, showNumber);
      && (BelowZero(form.nationalEmissionsMt) ==> e.nationalEmissionsMt == atLeastZero)
      && (BelowZero(form.householdRebateShare) ==> e.householdRebateShare == atLeastZero)
      && (BelowZero(form.childShareFactor) ==> e.childShareFactor == atLeastZero)
      && (BelowZero(form.gridEmissionsFactor) ==> e.gridEmissionsFactor == atLeastZero)
      && (BelowZero(form.gasEmissionsFactor) ==> e.gasEmissionsFactor == atLeastZero)
      && (BelowZero(form.petrolEmissionsFactor) ==> e.petrolEmissionsFactor == atLeastZero)
      && (BelowZero(form.passThroughElectricity) ==> e.passThroughElectricity == atLeastZero)
      && (BelowZero(form.passThroughGas) ==> e.passThroughGas == atLeastZero)
      && (BelowZero(form.passThroughPetrol) ==> e.passThroughPetrol == atLeastZero)
    ensures var e := PolicyFieldErrors(form, showNumber);
      var noMoreThanOne := NoMoreThanText(1.0, showNumber);
      && (AboveOne(form.householdRebateShare) ==> e.householdRebateShare == noMoreThanOne)
      && (AboveOne(form.passThroughElectricity) ==> e.passThroughElectricity == noMoreThanOne)
      && (AboveOne(form.passThroughGas) ==> e.passThroughGas == noMoreThanOne)
      && (AboveOne(form.passThroughPetrol) ==> e.passThroughPetrol == noMoreThanOne)
  {
  }

  /** Megatonnes to tonnes. */
  function EmissionsTonnes(megatonnes: real): (tonnes: real)
    ensures tonnes / TonnesPerMegatonne == megatonnes
    ensures megatonnes >= 0.0 ==> tonnes >= 0.0
  {
    megatonnes * TonnesPerMegatonne
  }

  /** The emissions field shows the default in Mt. */
  const DefaultEmissionsMt: real := DefaultPolicy.nationalEmissions / TonnesPerMegatonne

  /** Converting the Mt default back to tonnes reproduces the default exactly,
      and so does any figure stated in tonnes. */
  lemma EmissionsRoundTrip(tonnes: real)
    ensures EmissionsTonnes(tonnes / TonnesPerMegatonne) == tonnes
    ensures EmissionsTonnes(DefaultEmissionsMt) == DefaultPolicy.nationalEmissions
  {}

  /** The ranges the form guarantees for every policy value but the carbon
      price, which no validator checks. */
  predicate PolicyInRange(p: PolicyAssumptions)
  {
    && p.nationalEmissions >= 0.0
    && 0.0 <= p.householdRebateShare <= 1.0
    && p.population >= 0.0
    && 0.0 <= p.adultShare <= 1.0
    && p.childShareFactor >= 0.0
    && p.gridEmissionsFactor >= 0.0 && p.gasEmissionsFactor >= 0.0 && p.petrolEmissionsFactor >= 0.0
    && 0.0 <= p.passThroughElectricity <= 1.0
    && 0.0 <= p.passThroughGas <= 1.0
    && 0.0 <= p.passThroughPetrol <= 1.0
  }

  /** Every validated field of the background form is blank. */
  predicate BlankPolicyFields(form: PolicyForm)
  {
    && form.nationalEmissionsMt.Blank? && form.householdRebateShare.Blank?
    && form.population.Blank? && form.adultShare.Blank? && form.childShareFactor.Blank?
    && form.gridEmissionsFactor.Blank? && form.gasEmissionsFactor.Blank? && form.petrolEmissionsFactor.Blank?
    && form.passThroughElectricity.Blank? && form.passThroughGas.Blank? && form.passThroughPetrol.Blank?
  }

  /** Reads the background assumptions; every field falls back to its own
      default, and national emissions are scaled from Mt to t. */
  function GetPolicyAssumptions(form: PolicyForm, showNumber: real -> string): (p: PolicyAssumptions)
    ensures form.carbonPrice.None? ==> p.carbonPrice == DefaultPolicy.carbonPrice
    ensures form.carbonPrice.Some? ==> p.carbonPrice == form.carbonPrice.value
    ensures TakesEntryOrDefault(form.nationalEmissionsMt, DefaultEmissionsMt, NoOptions,
                                p.nationalEmissions / TonnesPerMegatonne)
    ensures TakesEntryOrDefault(form.householdRebateShare, DefaultPolicy.householdRebateShare, UnitInterval,
                                p.householdRebateShare)
    // the special message never rejects an in-range population or adult share
    ensures TakesEntryOrDefault(form.population, DefaultPolicy.population, PopulationOptions, p.population)
    ensures TakesEntryOrDefault(form.adultShare, DefaultPolicy.adultShare, AdultShareOptions, p.adultShare)
    ensures TakesEntryOrDefault(form.childShareFactor, DefaultPolicy.childShareFactor, NoOptions, p.childShareFactor)
    ensures TakesEntryOrDefault(form.gridEmissionsFactor, DefaultPolicy.gridEmissionsFactor, NoOptions,
                                p.gridEmissionsFactor)
    ensures TakesEntryOrDefault(form.gasEmissionsFactor, DefaultPolicy.gasEmissionsFactor, NoOptions,
                                p.gasEmissionsFactor)
    ensures TakesEntryOrDefault(form.petrolEmissionsFactor, DefaultPolicy.petrolEmissionsFactor, NoOptions,
                                p.petrolEmissionsFactor)
    ensures TakesEntryOrDefault(form.passThroughElectricity, DefaultPolicy.passThroughElectricity, UnitInterval,
                                p.passThroughElectricity)
    ensures TakesEntryOrDefault(form.passThroughGas, DefaultPolicy.passThroughGas, UnitInterval, p.passThroughGas)
    ensures TakesEntryOrDefault(form.passThroughPetrol, DefaultPolicy.passThroughPetrol, UnitInterval,
                                p.passThroughPetrol)
    ensures PolicyInRange(p)
    // with every field left blank the defaults come back exactly
    ensures BlankPolicyFields(form) ==> p == DefaultPolicy.(carbonPrice := p.carbonPrice)
  {
    var emissionsMt := FieldValue(form.nationalEmissionsMt, DefaultEmissionsMt, NoOptions, showNumber);
    EmissionsRoundTrip(DefaultPolicy.nationalEmissions);
    PolicyAssumptions(
      match form.carbonPrice
      case None => DefaultPolicy.carbonPrice
      case Some(price) => price,
      EmissionsTonnes(emissionsMt),
      FieldValue(form.householdRebateShare, DefaultPolicy.householdRebateShare, UnitInterval, showNumber),
      FieldValue(form.population, DefaultPolicy.population, PopulationOptions, showNumber),
      FieldValue(form.adultShare, DefaultPolicy.adultShare, AdultShareOptions, showNumber),
      FieldValue(form.childShareFactor, DefaultPolicy.childShareFactor, NoOptions, showNumber),
      FieldValue(form.gridEmissionsFactor, DefaultPolicy.gridEmissionsFactor, NoOptions, showNumber),
      FieldValue(form.gasEmissionsFactor, DefaultPolicy.gasEmissionsFactor, NoOptions, showNumber),
      FieldValue(form.petrolEmissionsFactor, DefaultPolicy.petrolEmissionsFactor, NoOptions, showNumber),
      FieldValue(form.passThroughElectricity, DefaultPolicy.passThroughElectricity, UnitInterval, showNumber),
      FieldValue(form.passThroughGas, DefaultPolicy.passThroughGas, UnitInterval, showNumber),
      FieldValue(form.passThroughPetrol, DefaultPolicy.passThroughPetrol, UnitInterval, showNumber))
  }
}

=== FILE: values.dfy ===
/**
 * The two kinds of "maybe a number" the calculator deals with.
 */
module Values {

  /** A number that may be JavaScript's `null`: the calculator's single
      "not computable" marker. `getMonthlyValue` also folds `undefined`
      into `None`. */
  datatype Option<+T> = None | Some(value: T)

  /** What `parseFloat` made of a piece of text: a finite number, or one of
      NaN, Infinity and -Infinity, which every caller treats alike. */
  datatype Num = Finite(value: real) | NonFinite
}
